=== FILE: README.md ===
# Snake game state, modelled in Dafny

This project models the game-state logic of a small Python snake game (`the_snake.py`). The model
advances the game one frame at a time. A snake moves on a 32 × 24 grid of 20-pixel cells on a
640 × 480 screen. It wraps around the edges and turns on arrow keys, but never straight back.
It grows by one when its head reaches the apple. It resets to a one-cell body at the screen
center when its head enters its own body from the third cell on. Each time the apple is eaten,
it is moved to a random cell the snake does not cover.

Everything is immutable and pure. A `Snake` record holds the fields of the Python object:
`positions` (head first), `direction`, `next` (`next_direction`), `length` and `last`. A
`World` pairs a snake with the apple's cell. Randomness is passed in as arguments:
- the direction `reset` picks with `choice` is a parameter;
- the grid coordinates `randint` yields are a sequence of draws;
- a frame's chosen apple cell is a parameter, constrained by a precondition.

Coordinates are pixel pairs, as in the source. Python's `%` floors. Dafny's `%` is Euclidean.
The two agree for the positive moduli 640 and 480 used in `move`.

Files:
- `board.dfy`: `Options` (`None`/`Some`) and `Board` (constants, directions, the wrapped `Step`);
- `controls.dfy`: the arrow-key rule of `handle_keys`;
- `snake.dfy`: the `Snake` class;
- `apple.dfy`: the retry loop of `randomize_position`;
- `game.dfy`: the frame of `main`, runs of frames, the world invariant and concrete scenarios.

Some behaviours of the code are easy to miss; the model follows the code:
- `reset` leaves a one-cell body with target length 2. It does not clear `next_direction` or `last`.
- `move` never clears `last`; it only overwrites it with the popped tail. A move without a pop keeps the old value.
- `move` returns no collided/moved tag. A collision shows up only as the reset state (`Snakes.Move`, `Game.Collided`).
- The collision test runs against the body before the tail is popped. So moving into the tail cell resets the snake, even when that cell would be vacated on the same move (`Game.TailChaseResets`).
- Apple relocation has no policy for a full board. It simply keeps drawing.
- Every arrow key of a frame is checked against the committed direction, not against the key accepted before it. Heading right, Up then Down leaves Down pending (`Controls.LaterKeyOverridesEarlier`).

## Model

| member | source | states |
|---|---|---|
| Board.Opposite | the_snake.py:12-15 | the opposite direction's vector is the negated vector, and it differs from the direction |
| Board.Step | the_snake.py:108-111 | a wrapped step always lands in [0,640) × [0,480), and a grid-aligned on-board cell steps to a grid-aligned on-board cell |
| Board.CenterIsCell | the_snake.py:94 | the starting cell (320, 240) is an on-board, grid-aligned cell |
| Board.StepBack | the_snake.py:108-111 | stepping one way and then in the opposite direction returns to the same on-board cell |
| Board.StepInjective | the_snake.py:108-111 | from an on-board cell, two directions reach the same cell exactly when they are equal, and no step stays in place |
| Controls.ApplyKey | the_snake.py:153-161 | an arrow key whose direction is not the reverse of the committed one becomes pending; any other key leaves the pending direction unchanged; the reverse is never made pending |
| Controls.HandleKeys | the_snake.py:149-161 | handling a frame's key presses changes the pending direction only to a direction that is not the reverse of the committed one |
| Controls.LastAcceptedWins | the_snake.py:149-161 | after a frame the pending direction is the last honoured key's direction, or unchanged when no key is honoured |
| Controls.LaterKeyOverridesEarlier | the_snake.py:153-161 | heading right, the keys Up then Down leave Down pending, because each key is checked against the committed direction |
| Controls.ReverseKeyIgnored | the_snake.py:154-161 | appending a press of the reverse arrow key leaves the frame's result unchanged |
| Snakes.Init | the_snake.py:92-98 | a new snake is one cell at the center heading right, nothing pending, target length 2, nothing vacated, and it is well formed |
| Snakes.Head | the_snake.py:133-135 | the head is a cell of the body, and the body is the head followed by the rest |
| Snakes.UpdateDirection | the_snake.py:100-104 | a pending direction becomes the committed one and is cleared; with none pending the snake is unchanged; body, length and last are never touched |
| Snakes.UpdateDirectionIdempotent | the_snake.py:100-104 | committing twice gives the same snake as committing once |
| Snakes.Reset | the_snake.py:137-141 | target length 2, a one-cell body at the center, the chosen direction; pending direction and vacated cell as before |
| Snakes.NextHead | the_snake.py:108-111 | the next head is on the board, and on the grid when the head is |
| Snakes.Move | the_snake.py:106-119 | resets exactly when the new head is in positions[2:]; otherwise the new head leads; when the body was at its target length the former tail is dropped into last, and otherwise the whole old body follows and last is kept |
| Snakes.MoveKeepsLengthBound | the_snake.py:116-119 | if the body is within its target length before a move, it is within it after |
| Snakes.MoveAfterReset | the_snake.py:114-119 | after a reset the next move gives a two-cell body without popping, so last stays as it was |
| Snakes.CommitKeepsNeckFree | the_snake.py:100-104 | once the pending direction is committed, the new direction never leads into the cell right behind the head |
| Snakes.CollisionIsFullBodyTest | the_snake.py:114 | for a snake that cannot turn back, the positions[2:] test is the same as a test against the whole body |
| Snakes.MoveKeepsWellFormed | the_snake.py:106-119 | a move keeps the body on the grid, free of duplicates and within its target length, with the head one step from the next cell |
| Apples.ToCell | the_snake.py:76-77 | a draw names an on-board grid cell exactly when both randint results are within their inclusive ranges |
| Apples.DrawRoundTrip | the_snake.py:76-77 | draws and grid cells correspond one to one, so every cell can be drawn |
| Apples.RandomizePosition | the_snake.py:73-79 | the result is the first drawn cell that is not occupied, which is a grid cell; none is found exactly when every draw is occupied |
| Game.InitAsWritten | the_snake.py:69-71 | the game starts with the new snake, and any grid cell can be the starting apple, since nothing is excluded |
| Game.InitialAppleMayCoverSnake | the_snake.py:169-171 | the starting apple can lie on the snake's head, which breaks the world invariant |
| Game.Init | the_snake.py:169-170 | the game starts with the new snake of the_snake.py:92-98 and an apple that avoids it, and this start satisfies the world invariant |
| Game.Pressed | the_snake.py:175 | key handling changes only the pending direction: the last honoured key of the frame becomes pending, nothing changes when no key is honoured, and a reversal is never made pending |
| Game.Advance | the_snake.py:175-177 | after keys, commit and move, the pending direction is cleared and the apple has not moved; on a collision the body is the center cell heading in the reset direction; otherwise the new head is one step from the old head in the just-committed direction and the rest of the body is a prefix of the old body |
| Game.Feed | the_snake.py:179-181 | only the target length of the snake can change; when the head is on the apple, the length grows by exactly 1 and the apple moves to a cell off the body; otherwise nothing changes |
| Game.Tick | the_snake.py:175-181 | after a frame nothing is pending and the snake is the moved snake with at most its length changed; eating adds exactly 1 to the length and puts the apple off the body; otherwise length and apple are unchanged |
| Game.PlayFrame | the_snake.py:175-181 | running the apple loop of the_snake.py:73-79 over the draws gives the same frame as Tick with the chosen cell, and an eaten apple moves to the first free draw; it fails only when the apple is eaten and every draw is occupied; the invariant is kept |
| Game.GrowthMonotone | the_snake.py:175-181 | a frame without a collision keeps the length or adds 1; a collision leaves the center cell alone with length 3 if the apple is there and 2 otherwise |
| Game.TickKeepsInv | the_snake.py:172-181 | one frame keeps the invariant: the snake is well formed, no reversal is pending, and the apple is a grid cell off the snake |
| Game.RunKeepsInv | the_snake.py:172-181 | any number of frames keeps the world invariant |
| Game.Run | the_snake.py:172-181 | running frames one after another always leaves a non-empty body, so the head is defined |
| Game.RunOneFrame | the_snake.py:172-181 | a run of one frame is playable exactly when that frame is, and gives the same world as that one frame |
| Game.RunLeavesNothingPending | the_snake.py:172-181 | after at least one frame no direction is pending |
| Game.RunSplit | the_snake.py:172-181 | running two stretches of frames equals running the first and then the second from where it ended |
| Game.GameKeepsInv | the_snake.py:167-181 | a game started with the apple off the snake keeps the invariant through every run of frames |
| Game.ThreeIdleFrames | the_snake.py:106-119 | from the start, three frames without input move the head three cells right, with a two-cell body |
| Game.EatOnFirstFrame | the_snake.py:176-181 | an apple one cell right of the start is eaten on the first frame; the length becomes 3 and the apple moves |
| Game.TailChaseResets | the_snake.py:114-119 | turning a four-cell loop into its own tail resets the snake, even though that tail would be popped on the same move |

## Left out

- Pygame initialisation, the display surface, the clock and `SPEED` (the_snake.py:29-39, 173) are I/O and frame timing.
- `draw`, `draw_cell`, the colour constants and the screen update (the_snake.py:17-27, 53-61, 81-83, 121-131, 183-185) only render. So does the erasing of `last`.
- `GameObject`'s `position` and `body_color` on the snake are never read by the game logic.
- Event polling, non-key events, `pygame.QUIT`, `pygame.quit()` and `SystemExit` (the_snake.py:149-152) are input I/O and process exit. Only the arrow-key rule is modelled. Keys arrive as a sequence of key-down events per frame.
- `randint` and `choice` are not modelled as random. Their results are arguments: the reset direction, the sequence of grid draws, and the chosen apple cell.
- Apples.RandomizePosition: the source loop can draw forever. The model stops when the supplied draws are used up and returns `None`.
- Game.Tick: the chosen apple cell is a parameter. A precondition requires it to be a grid cell off the body whenever the apple is eaten. `Game.PlayFrame` ties this parameter to the actual loop.

## Findings

| source | as written | input that shows it | evidently intended | confidence | as-written member | corrected member |
|---|---|---|---|---|---|---|
| the_snake.py:69-71, 169-170 | the first apple is placed with `randomize_position([])`, so nothing is excluded | the first draw is (16, 12), which is pixel cell (320, 240), the snake's starting cell | food never placed on the snake's body, as for every later placement | medium, not executed | Game.InitAsWritten, Game.InitialAppleMayCoverSnake | Game.Init, Game.GameKeepsInv |

`Game.InitAsWritten` models the start as written. `Game.Init` excludes the starting body when it draws the apple. The run lemmas start from `Game.Init`.

=== FILE: apple.dfy ===
/** Apple placement: `randomize_position` draws random grid coordinates
    until the cell they name is not occupied. The random draws are supplied
    by the caller as a finite sequence. */
module Apples {
  import opened Options
  import opened Board

  /** One pair of `randint` results: a column and a row of the grid. */
  type Draw = (int, int)

  /** `randint(0, GRID_WIDTH - 1)` and `randint(0, GRID_HEIGHT - 1)` are
      inclusive at both ends. */
  predicate InRange(g: Draw)
  {
    0 <= g.0 <= GridWidth - 1 && 0 <= g.1 <= GridHeight - 1
  }

  /** The pixel cell a draw names. */
  function ToCell(g: Draw): (c: Cell)
    ensures InRange(g) <==> IsCell(c)
  {
    (g.0 * GridSize, g.1 * GridSize)
  }

  /** The draw that names a cell. */
  function ToDraw(c: Cell): (g: Draw)
  {
    (c.0 / GridSize, c.1 / GridSize)
  }

  /** Draws and grid cells correspond one to one, so every free cell of the
      board can be chosen. */
  lemma DrawRoundTrip(g: Draw, c: Cell)
    ensures ToDraw(ToCell(g)) == g
    ensures IsCell(c) ==> ToCell(ToDraw(c)) == c && InRange(ToDraw(c))
  {
  }

  /** `draws[k]` is the first draw naming a free cell. */
  predicate FirstFree(occupied: seq<Cell>, draws: seq<Draw>, k: int)
  {
    0 <= k < |draws| && ToCell(draws[k]) !in occupied
    && forall j :: 0 <= j < k ==> ToCell(draws[j]) in occupied
  }

  /** The retry loop of `randomize_position`, run over the supplied draws.
      It yields the cell of the first draw that is not occupied, or `None`
      when every supplied draw hits an occupied cell (the source would keep
      drawing). */
  method RandomizePosition(occupied: seq<Cell>, draws: seq<Draw>) returns (r: Option<Cell>)
    requires forall i :: 0 <= i < |draws| ==> InRange(draws[i])
    ensures r.Some? ==> IsCell(r.value) && r.value !in occupied
    ensures r.Some? ==> exists k :: FirstFree(occupied, draws, k) && r.value == ToCell(draws[k])
    ensures r.None? <==> forall i :: 0 <= i < |draws| ==> ToCell(draws[i]) in occupied
  {
    var i := 0;
    while i < |draws|
      invariant 0 <= i <= |draws|
      invariant forall j :: 0 <= j < i ==> ToCell(draws[j]) in occupied
    {
      var position := ToCell(draws[i]);
      if position !in occupied {
        assert FirstFree(occupied, draws, i);
        return Some(position);
      }
      i := i + 1;
    }
    return None;
  }
}

=== FILE: board.dfy ===
/** Optional values, standing in for Python's `None` in the snake's
    `next_direction` and `last` attributes. */
module Options {
  datatype Option<+T> = None | Some(value: T)
}

/** Board geometry of the game: screen size in pixels, the cell size, the
    four directions and the one-cell step with wrap-around at the edges.
    Cells are pixel coordinates of a cell's top-left corner. */
module Board {

  const ScreenWidth: int := 640
  const ScreenHeight: int := 480
  const GridSize: int := 20
  /** Number of cells per row and per column (Python `//`, exact here). */
  const GridWidth: int := ScreenWidth / GridSize
  const GridHeight: int := ScreenHeight / GridSize

  /** A pixel position (x, y). */
  type Cell = (int, int)

  /** The middle of the screen, where every snake starts. */
  const Center: Cell := (ScreenWidth / 2, ScreenHeight / 2)

  datatype Direction = Up | Down | Left | Right

  /** The unit vector of a direction; y grows downwards. */
  function Vector(d: Direction): (v: (int, int))
  {
    match d
    case Up => (0, -1)
    case Down => (0, 1)
    case Left => (-1, 0)
    case Right => (1, 0)
  }

  /** The direction whose vector is the negation of `d`'s. */
  function Opposite(d: Direction): (o: Direction)
    ensures Vector(o) == (-Vector(d).0, -Vector(d).1)
    ensures o != d
  {
    match d
    case Up => Down
    case Down => Up
    case Left => Right
    case Right => Left
  }

  predicate OnBoard(c: Cell)
  {
    0 <= c.0 < ScreenWidth && 0 <= c.1 < ScreenHeight
  }

  predicate Aligned(c: Cell)
  {
    c.0 % GridSize == 0 && c.1 % GridSize == 0
  }

  /** A cell that can be drawn: on the screen and on the grid. */
  predicate IsCell(c: Cell)
  {
    OnBoard(c) && Aligned(c)
  }

  /** The cell one grid step from `c` in direction `d`, wrapped around the
      screen. Python's `%` floors and Dafny's `%` is Euclidean; for the
      positive moduli used here both give the same non-negative remainder. */
  function Step(c: Cell, d: Direction): (n: Cell)
    ensures OnBoard(n)
    ensures IsCell(c) ==> IsCell(n)
  {
    ((c.0 + Vector(d).0 * GridSize) % ScreenWidth,
     (c.1 + Vector(d).1 * GridSize) % ScreenHeight)
  }

  /** The center cell is a grid cell. */
  lemma CenterIsCell()
    ensures IsCell(Center)
  {
  }

  /** Stepping one way and then back returns to an on-board cell. */
  lemma StepBack(c: Cell, d: Direction)
    requires OnBoard(c)
    ensures Step(Step(c, d), Opposite(d)) == c
  {
    WrapBackWidth(c.0, Vector(d).0 * GridSize);
    WrapBackHeight(c.1, Vector(d).1 * GridSize);
  }

  /** The x coordinate of a wrapped step there and back: adding `a` modulo
      the screen width and then subtracting it gives back an on-screen `x`. */
  lemma WrapBackWidth(x: int, a: int)
    requires 0 <= x < ScreenWidth && -ScreenWidth < a < ScreenWidth
    ensures ((x + a) % ScreenWidth - a) % ScreenWidth == x
  {
    if x + a >= ScreenWidth {
      assert (x + a) % ScreenWidth == x + a - ScreenWidth;
    } else if x + a < 0 {
      assert (x + a) % ScreenWidth == x + a + ScreenWidth;
    }
  }

  /** The same for the y coordinate and the screen height. */
  lemma WrapBackHeight(x: int, a: int)
    requires 0 <= x < ScreenHeight && -ScreenHeight < a < ScreenHeight
    ensures ((x + a) % ScreenHeight - a) % ScreenHeight == x
  {
    if x + a >= ScreenHeight {
      assert (x + a) % ScreenHeight == x + a - ScreenHeight;
    } else if x + a < 0 {
      assert (x + a) % ScreenHeight == x + a + ScreenHeight;
    }
  }

  /** From an on-board cell, different directions reach different cells,
      and no direction stays in place (the grid is at least three cells
      wide and high). */
  lemma StepInjective(c: Cell, d1: Direction, d2: Direction)
    requires OnBoard(c)
    ensures Step(c, d1) == Step(c, d2) <==> d1 == d2
    ensures Step(c, d1) != c
  {
  }
}

=== FILE: controls.dfy ===
/** The keyboard rule of `handle_keys`: which pending direction an arrow
    key press leaves behind, given the snake's committed direction. Event
    polling and the quit event are outside this module. */
module Controls {
  import opened Options
  import opened Board

  /** A key-down event: one of the four arrow keys, or any other key. */
  datatype Key = KeyUp | KeyDown | KeyLeft | KeyRight | OtherKey

  /** The direction an arrow key asks for; other keys ask for nothing. */
  function Intent(k: Key): (d: Option<Direction>)
  {
    match k
    case KeyUp => Some(Up)
    case KeyDown => Some(Down)
    case KeyLeft => Some(Left)
    case KeyRight => Some(Right)
    case OtherKey => None
  }

  /** A key is honoured when it is an arrow key whose direction is not the
      exact reverse of the committed direction. */
  predicate Accepted(k: Key, direction: Direction)
  {
    Intent(k).Some? && Intent(k).value != Opposite(direction)
  }

  /** One key press: the `if`/`elif` chain of `handle_keys`, returning the
      new `next_direction`. */
  function ApplyKey(k: Key, direction: Direction, next: Option<Direction>): (r: Option<Direction>)
    ensures Accepted(k, direction) ==> r == Intent(k)
    ensures !Accepted(k, direction) ==> r == next
    ensures r != Some(Opposite(direction)) || r == next
  {
    if k == KeyUp && direction != Down then Some(Up)
    else if k == KeyDown && direction != Up then Some(Down)
    else if k == KeyLeft && direction != Right then Some(Left)
    else if k == KeyRight && direction != Left then Some(Right)
    else next
  }

  /** All key presses polled in one frame, in order; `direction` does not
      change while they are handled. */
  function HandleKeys(keys: seq<Key>, direction: Direction, next: Option<Direction>): (r: Option<Direction>)
    ensures r != next ==> r.Some? && r.value != Opposite(direction)
    decreases |keys|
  {
    if |keys| == 0 then next
    else ApplyKey(keys[|keys| - 1], direction, HandleKeys(keys[..|keys| - 1], direction, next))
  }

  /** `keys[i]` is the last key of the frame that is honoured. */
  predicate LastAccepted(keys: seq<Key>, direction: Direction, i: int)
  {
    0 <= i < |keys| && Accepted(keys[i], direction)
    && forall j :: i < j < |keys| ==> !Accepted(keys[j], direction)
  }

  /** Last writer wins: the pending direction after a frame is the intent of
      the last honoured key, or the old pending direction if none is. */
  lemma {:induction false} LastAcceptedWins(keys: seq<Key>, direction: Direction, next: Option<Direction>)
    ensures (forall i :: 0 <= i < |keys| ==> !Accepted(keys[i], direction))
            ==> HandleKeys(keys, direction, next) == next
    ensures forall i :: LastAccepted(keys, direction, i) ==> HandleKeys(keys, direction, next) == Intent(keys[i])
    decreases |keys|
  {
    if |keys| > 0 {
      var init := keys[..|keys| - 1];
      var k := keys[|keys| - 1];
      LastAcceptedWins(init, direction, next);
      if !Accepted(k, direction) {
        forall i | LastAccepted(keys, direction, i)
          ensures LastAccepted(init, direction, i)
        {
          assert i < |keys| - 1;
        }
      }
    }
  }

  /** Each key is checked against the committed direction, not against the
      key before it: heading right, Up then Down leaves Down pending. */
  lemma LaterKeyOverridesEarlier()
    ensures HandleKeys([KeyUp, KeyDown], Right, None) == Some(Down)
  {
    assert [KeyUp, KeyDown][..1] == [KeyUp];
    assert [KeyUp][..0] == [];
  }

  /** Pressing the reverse arrow has no effect, whatever was pending. */
  lemma ReverseKeyIgnored(keys: seq<Key>, k: Key, direction: Direction, next: Option<Direction>)
    requires Intent(k) == Some(Opposite(direction))
    ensures HandleKeys(keys + [k], direction, next) == HandleKeys(keys, direction, next)
  {
    assert (keys + [k])[..|keys + [k]| - 1] == keys;
  }
}

=== FILE: game.dfy ===
/** The world of one game (a snake and an apple) and the frame of `main`:
    handle keys, commit the direction, move, then eat and relocate the apple
    when the head is on it. */
module Game {
  import opened Options
  import opened Board
  import opened Controls
  import opened Snakes
  import Apples

  datatype World = World(snake: Snake, apple: Cell)

  /** The random inputs of one frame besides the keys: the direction `reset`
      would choose, and the free cell `randomize_position` would settle on. */
  datatype Frame = Frame(keys: seq<Key>, resetDirection: Direction, pick: Cell)

  /** The world between frames: a well-formed snake and an apple on a grid
      cell that the snake does not cover. */
  predicate Inv(w: World)
  {
    WellFormed(w.snake) && IsCell(w.apple) && w.apple !in w.snake.positions
  }

  /** The game as `main` starts it, with the apple drawn while nothing is
      excluded, so any grid cell can come out. */
  function InitAsWritten(pick: Cell): (w: World)
    requires IsCell(pick)
    ensures WellFormed(w.snake) && w.apple == pick
    ensures w.snake == Snakes.Init()
  {
    CenterIsCell();
    World(Snakes.Init(), pick)
  }

  /** The game start with the apple drawn clear of the starting snake. */
  function Init(pick: Cell): (w: World)
    requires IsCell(pick) && pick !in Snakes.Init().positions
    ensures Inv(w) && w.apple == pick
    ensures w.snake == Snakes.Init()
  {
    CenterIsCell();
    World(Snakes.Init(), pick)
  }

  /** The initial draw can put the apple under the snake's head. */
  lemma InitialAppleMayCoverSnake()
    ensures IsCell(Center)
    ensures InitAsWritten(Center).apple in InitAsWritten(Center).snake.positions
    ensures !Inv(InitAsWritten(Center))
  {
    CenterIsCell();
  }

  /** The snake after this frame's keys are handled: only the pending
      direction can change. */
  function Pressed(s: Snake, keys: seq<Key>): (r: Snake)
    ensures r.positions == s.positions && r.direction == s.direction
    ensures r.length == s.length && r.last == s.last
    ensures s.next != Some(Opposite(s.direction)) ==> r.next != Some(Opposite(s.direction))
    ensures forall i :: LastAccepted(keys, s.direction, i) ==> r.next == Intent(keys[i])
    ensures (forall i :: 0 <= i < |keys| ==> !Accepted(keys[i], s.direction)) ==> r.next == s.next
  {
    LastAcceptedWins(keys, s.direction, s.next);
    s.(next := HandleKeys(keys, s.direction, s.next))
  }

  /** `handle_keys`, `update_direction` and `move` of one frame. */
  function Advance(w: World, keys: seq<Key>, resetDirection: Direction): (r: World)
    requires |w.snake.positions| > 0
    ensures r.apple == w.apple
    ensures |r.snake.positions| > 0 && r.snake.next == None
    ensures Collided(w, keys) ==> r.snake.positions == [Center] && r.snake.direction == resetDirection
    ensures !Collided(w, keys) ==>
      && Head(r.snake) == Step(Head(w.snake), r.snake.direction)
      && r.snake.positions[1..] <= w.snake.positions
  {
    w.(snake := Move(UpdateDirection(Pressed(w.snake, keys)), resetDirection))
  }

  /** The frame's move hit the body. */
  predicate Collided(w: World, keys: seq<Key>)
    requires |w.snake.positions| > 0
  {
    Collides(UpdateDirection(Pressed(w.snake, keys)))
  }

  /** The head is on the apple. */
  predicate Eats(w: World)
    requires |w.snake.positions| > 0
  {
    Head(w.snake) == w.apple
  }

  /** What the random source must deliver: when the apple is eaten,
      `randomize_position(snake.positions)` ends on a grid cell outside
      the body. */
  predicate PickOk(w: World, pick: Cell)
    requires |w.snake.positions| > 0
  {
    Eats(w) ==> IsCell(pick) && pick !in w.snake.positions
  }

  /** Eating: the target length grows by one and the apple moves to the
      picked free cell; otherwise nothing changes. */
  function Feed(w: World, pick: Cell): (r: World)
    requires |w.snake.positions| > 0
    requires PickOk(w, pick)
    ensures r.snake == w.snake.(length := r.snake.length)
    ensures Eats(w) ==> r.snake.length == w.snake.length + 1
    ensures Eats(w) ==> r.apple == pick && r.apple !in r.snake.positions && r.apple != w.apple
    ensures !Eats(w) ==> r == w
  {
    if Head(w.snake) == w.apple then
      World(w.snake.(length := w.snake.length + 1), pick)
    else
      w
  }

  /** One frame of `main`. */
  function Tick(w: World, f: Frame): (r: World)
    requires |w.snake.positions| > 0
    requires PickOk(Advance(w, f.keys, f.resetDirection), f.pick)
    ensures |r.snake.positions| > 0 && r.snake.next == None
    ensures r.snake == Advance(w, f.keys, f.resetDirection).snake.(length := r.snake.length)
    ensures Eats(Advance(w, f.keys, f.resetDirection)) ==>
      && r.snake.length == Advance(w, f.keys, f.resetDirection).snake.length + 1
      && r.apple == f.pick && r.apple !in r.snake.positions
    ensures !Eats(Advance(w, f.keys, f.resetDirection)) ==>
      r.snake.length == Advance(w, f.keys, f.resetDirection).snake.length && r.apple == w.apple
  {
    Feed(Advance(w, f.keys, f.resetDirection), f.pick)
  }

  /** One frame of `main` with `randomize_position` run over the supplied
      random draws. `None` means the apple was eaten and every draw hit the
      snake, so the source would still be drawing. */
  method PlayFrame(w: World, keys: seq<Key>, resetDirection: Direction, draws: seq<Apples.Draw>)
    returns (r: Option<World>)
    requires |w.snake.positions| > 0
    requires forall i :: 0 <= i < |draws| ==> Apples.InRange(draws[i])
    ensures r.None? <==>
      && Eats(Advance(w, keys, resetDirection))
      && forall i :: 0 <= i < |draws| ==> Apples.ToCell(draws[i]) in Advance(w, keys, resetDirection).snake.positions
    ensures r.Some? ==>
      && PickOk(Advance(w, keys, resetDirection), r.value.apple)
      && r.value == Tick(w, Frame(keys, resetDirection, r.value.apple))
    ensures r.Some? && Eats(Advance(w, keys, resetDirection)) ==>
      exists k :: Apples.FirstFree(Advance(w, keys, resetDirection).snake.positions, draws, k)
                  && r.value.apple == Apples.ToCell(draws[k])
    ensures r.Some? && Inv(w) ==> Inv(r.value)
  {
    var a := Advance(w, keys, resetDirection);
    if Head(a.snake) == a.apple {
      var position := Apples.RandomizePosition(a.snake.positions, draws);
      if position.None? {
        return None;
      }
      r := Some(Feed(a, position.value));
    } else {
      r := Some(Feed(a, a.apple));
    }
    if Inv(w) {
      TickKeepsInv(w, Frame(keys, resetDirection, r.value.apple));
    }
  }

  /** The target length only drops through a reset; without one it stays
      or grows by exactly one. */
  lemma GrowthMonotone(w: World, f: Frame)
    requires |w.snake.positions| > 0
    requires PickOk(Advance(w, f.keys, f.resetDirection), f.pick)
    ensures Collided(w, f.keys) ==>
      && Tick(w, f).snake.positions == [Center]
      && Tick(w, f).snake.length == (if Eats(Advance(w, f.keys, f.resetDirection)) then 3 else 2)
    ensures !Collided(w, f.keys) ==>
      w.snake.length <= Tick(w, f).snake.length <= w.snake.length + 1
  {
  }

  /** A frame keeps the world invariant: the body stays on the grid,
      duplicate-free and within its target length, no reversal is pending,
      and the apple stays off the snake. */
  lemma {:induction false} TickKeepsInv(w: World, f: Frame)
    requires Inv(w)
    requires PickOk(Advance(w, f.keys, f.resetDirection), f.pick)
    ensures Inv(Tick(w, f))
  {
    var pressed := Pressed(w.snake, f.keys);
    assert WellFormed(pressed);
    var committed := UpdateDirection(pressed);
    CommitKeepsNeckFree(pressed);
    MoveKeepsWellFormed(committed, f.resetDirection);
    var a := Advance(w, f.keys, f.resetDirection);
    if !Eats(a) && !Collides(committed) {
      assert a.snake.positions[1..] <= w.snake.positions;
      assert a.snake.positions == [Head(a.snake)] + a.snake.positions[1..];
    }
  }

  /** Whether the random source can serve every frame in turn. */
  predicate Playable(w: World, frames: seq<Frame>)
    requires |w.snake.positions| > 0
    decreases |frames|
  {
    |frames| == 0 ||
    (PickOk(Advance(w, frames[0].keys, frames[0].resetDirection), frames[0].pick)
     && Playable(Tick(w, frames[0]), frames[1..]))
  }

  /** The frames of `main`, one after the other. */
  function Run(w: World, frames: seq<Frame>): (r: World)
    requires |w.snake.positions| > 0
    requires Playable(w, frames)
    ensures |r.snake.positions| > 0
    decreases |frames|
  {
    if |frames| == 0 then w else Run(Tick(w, frames[0]), frames[1..])
  }

  /** Running a single frame is that frame. */
  lemma RunOneFrame(w: World, frames: seq<Frame>)
    requires |w.snake.positions| > 0 && |frames| == 1
    requires PickOk(Advance(w, frames[0].keys, frames[0].resetDirection), frames[0].pick)
    ensures Playable(w, frames)
    ensures Run(w, frames) == Tick(w, frames[0])
  {
    assert frames[1..] == [];
  }

  /** After at least one frame no direction is pending. */
  lemma {:induction false} RunLeavesNothingPending(w: World, frames: seq<Frame>)
    requires |w.snake.positions| > 0
    requires Playable(w, frames) && |frames| > 0
    ensures Run(w, frames).snake.next == None
    decreases |frames|
  {
    if |frames| > 1 {
      RunLeavesNothingPending(Tick(w, frames[0]), frames[1..]);
    }
  }

  /** Running two stretches of frames is running the first and then the
      second from where it ended. */
  lemma {:induction false} RunSplit(w: World, a: seq<Frame>, b: seq<Frame>)
    requires |w.snake.positions| > 0
    requires Playable(w, a + b)
    ensures Playable(w, a)
    ensures Playable(Run(w, a), b)
    ensures Run(w, a + b) == Run(Run(w, a), b)
    decreases |a|
  {
    if |a| > 0 {
      assert (a + b)[0] == a[0];
      assert (a + b)[1..] == a[1..] + b;
      RunSplit(Tick(w, a[0]), a[1..], b);
    } else {
      assert a + b == b;
    }
  }

  /** Every game reachable from a good start keeps the invariant. */
  lemma {:induction false} RunKeepsInv(w: World, frames: seq<Frame>)
    requires Inv(w)
    requires Playable(w, frames)
    ensures Inv(Run(w, frames))
    decreases |frames|
  {
    if |frames| > 0 {
      TickKeepsInv(w, frames[0]);
      RunKeepsInv(Tick(w, frames[0]), frames[1..]);
    }
  }

  /** The game started by `Init` keeps the invariant for ever. */
  lemma GameKeepsInv(pick: Cell, frames: seq<Frame>)
    requires IsCell(pick) && pick !in Snakes.Init().positions
    requires Playable(Init(pick), frames)
    ensures Inv(Run(Init(pick), frames))
  {
    RunKeepsInv(Init(pick), frames);
  }

  /** A frame with no key presses whose random inputs are never used when
      nothing is eaten or hit. */
  const Idle: Frame := Frame([], Up, (0, 0))

  /** Three idle frames from the start: the head goes three cells right and
      the body is two cells long. */
  lemma ThreeIdleFrames()
    ensures Playable(Init((0, 0)), [Idle, Idle, Idle])
    ensures Run(Init((0, 0)), [Idle, Idle, Idle]).snake.positions == [(380, 240), (360, 240)]
    ensures Run(Init((0, 0)), [Idle, Idle, Idle]).snake.last == Some((340, 240))
  {
    var w0 := Init((0, 0));
    var w1 := Tick(w0, Idle);
    assert w1.snake.positions == [(340, 240), (320, 240)];
    var w2 := Tick(w1, Idle);
    assert w2.snake.positions == [(360, 240), (340, 240)];
    var w3 := Tick(w2, Idle);
    assert w3.snake.positions == [(380, 240), (360, 240)];
    assert [Idle, Idle, Idle][1..] == [Idle, Idle];
    assert [Idle, Idle][1..] == [Idle];
    assert [Idle][1..] == [];
    assert Playable(w3, []);
    assert Playable(w2, [Idle]);
    assert Playable(w1, [Idle, Idle]);
    assert Run(w2, [Idle]) == Run(w3, []) == w3;
    assert Run(w1, [Idle, Idle]) == Run(w2, [Idle]);
    assert Run(w0, [Idle, Idle, Idle]) == Run(w1, [Idle, Idle]);
  }

  /** The apple right in front of the starting snake is eaten on the first
      frame: the target length becomes 3 and the apple moves elsewhere. */
  lemma EatOnFirstFrame()
    ensures PickOk(Advance(Init((340, 240)), [], Up), (0, 0))
    ensures Tick(Init((340, 240)), Frame([], Up, (0, 0))).snake.length == 3
    ensures Tick(Init((340, 240)), Frame([], Up, (0, 0))).apple == (0, 0)
  {
    var a := Advance(Init((340, 240)), [], Up);
    assert a.snake.positions == [(340, 240), (320, 240)];
  }

  /** A 2x2 loop: the head at (0, 20) heading left, the tail at (0, 0). */
  const Loop: Snake := Snake([(0, 20), (20, 20), (20, 0), (0, 0)], Left, None, 4, None)

  /** Turning up into the tail cell resets the snake, although the tail
      would have been popped on that very move: the collision test runs
      against the body before the pop. */
  lemma TailChaseResets()
    ensures Inv(World(Loop, (100, 100)))
    ensures Step(Head(Loop), Up) == Loop.positions[3] && |Loop.positions| + 1 > Loop.length
    ensures Collided(World(Loop, (100, 100)), [KeyUp])
    ensures Tick(World(Loop, (100, 100)), Frame([KeyUp], Down, (0, 0))).snake.positions == [Center]
    ensures Tick(World(Loop, (100, 100)), Frame([KeyUp], Down, (0, 0))).snake.length == 2
  {
    assert HandleKeys([KeyUp], Left, None) == Some(Up);
    var committed := UpdateDirection(Pressed(Loop, [KeyUp]));
    assert committed.direction == Up;
    assert SliceFrom(committed.positions, 2)[1] == (0, 0);
  }
}

=== FILE: snake.dfy ===
/** The snake: its body (head first), committed and pending direction,
    target length and the last cell it vacated. Every operation returns a
    new snake instead of mutating one. */
module Snakes {
  import opened Options
  import opened Board

  datatype Snake = Snake(
    positions: seq<Cell>,          // head first
    direction: Direction,          // committed direction
    next: Option<Direction>,       // pending direction, `next_direction`
    length: int,                   // target length
    last: Option<Cell>             // cell vacated by the latest pop
  )

  /** The snake of a new game: one cell at the center, heading right,
      growing towards length 2. */
  function Init(): (r: Snake)
    ensures WellFormed(r) && r.positions == [Center] && r.direction == Right
    ensures r.next == None && r.length == 2 && r.last == None
  {
    CenterIsCell();
    Snake([Center], Right, None, 2, None)
  }

  predicate Distinct(cells: seq<Cell>)
  {
    forall i, j :: 0 <= i < j < |cells| ==> cells[i] != cells[j]
  }

  /** The shape shared by every snake between ticks. */
  predicate Shaped(s: Snake)
  {
    && 2 <= s.length
    && 1 <= |s.positions| <= s.length
    && (forall i :: 0 <= i < |s.positions| ==> IsCell(s.positions[i]))
    && Distinct(s.positions)
  }

  /** The snake between ticks: shaped, its head one step from the cell
      behind it in the committed direction, and no reversal pending. */
  predicate WellFormed(s: Snake)
  {
    && Shaped(s)
    && (|s.positions| >= 2 ==> s.positions[0] == Step(s.positions[1], s.direction))
    && s.next != Some(Opposite(s.direction))
  }

  /** The snake right after its direction is committed: shaped, nothing
      pending, and the committed direction does not lead into the cell
      right behind the head. */
  predicate Steerable(s: Snake)
  {
    && Shaped(s)
    && s.next == None
    && (|s.positions| >= 2 ==> Step(s.positions[0], s.direction) != s.positions[1])
  }

  /** `get_head_position`. */
  function Head(s: Snake): (h: Cell)
    requires |s.positions| > 0
    ensures h in s.positions
    ensures s.positions == [h] + s.positions[1..]
  {
    s.positions[0]
  }

  /** `update_direction`: a pending direction becomes the committed one and
      is cleared; without one nothing changes. */
  function UpdateDirection(s: Snake): (r: Snake)
    ensures r.next == None
    ensures s.next.Some? ==> r.direction == s.next.value
    ensures s.next == None ==> r == s
    ensures r.positions == s.positions && r.length == s.length && r.last == s.last
  {
    match s.next
    case Some(d) => s.(direction := d, next := None)
    case None => s
  }

  /** Committing twice is committing once. */
  lemma UpdateDirectionIdempotent(s: Snake)
    ensures UpdateDirection(UpdateDirection(s)) == UpdateDirection(s)
  {
  }

  /** `reset`: back to a one-cell body at the center with target length 2
      and the randomly chosen direction `d`; the pending direction and the
      vacated cell are kept as they were. */
  function Reset(s: Snake, d: Direction): (r: Snake)
    ensures r.length == 2 && |r.positions| == 1 && Head(r) == Center
    ensures r.direction == d
    ensures r.next == s.next && r.last == s.last
    ensures Shaped(r)
  {
    CenterIsCell();
    Snake([Center], d, s.next, 2, s.last)
  }

  /** Where the head goes next: one wrapped step in the committed direction. */
  function NextHead(s: Snake): (n: Cell)
    requires |s.positions| > 0
    ensures OnBoard(n)
    ensures IsCell(Head(s)) ==> IsCell(n)
  {
    Step(Head(s), s.direction)
  }

  /** Python's slice `cells[k:]` for `k >= 0`: empty when the list is
      shorter than `k`. */
  function SliceFrom(cells: seq<Cell>, k: nat): (r: seq<Cell>)
  {
    if |cells| < k then [] else cells[k..]
  }

  /** Self-collision, checked against the body from index 2 on and before the
      tail is popped. */
  predicate Collides(s: Snake)
    requires |s.positions| > 0
  {
    NextHead(s) in SliceFrom(s.positions, 2)
  }

  /** `move`: on a collision the snake resets with the random direction `d`;
      otherwise the new head is pushed on the front and, if the body is then
      longer than the target length, the tail is popped into `last`. */
  function Move(s: Snake, d: Direction): (r: Snake)
    requires |s.positions| > 0
    ensures Collides(s) <==> r == Reset(s, d)
    ensures !Collides(s) ==>
      && |r.positions| > 0 && Head(r) == NextHead(s)
      && r.direction == s.direction && r.next == s.next && r.length == s.length
    ensures !Collides(s) && |s.positions| + 1 > s.length ==>
      && r.positions[1..] == s.positions[..|s.positions| - 1]
      && r.last == Some(s.positions[|s.positions| - 1])
    ensures !Collides(s) && |s.positions| + 1 <= s.length ==>
      && r.positions[1..] == s.positions
      && r.last == s.last
  {
    var h := NextHead(s);
    if h in SliceFrom(s.positions, 2) then Reset(s, d)
    else
      var grown := [h] + s.positions;
      if |grown| > s.length then
        s.(positions := grown[..|grown| - 1], last := Some(grown[|grown| - 1]))
      else
        s.(positions := grown)
  }

  /** The body never outgrows the target length across a move. */
  lemma MoveKeepsLengthBound(s: Snake, d: Direction)
    requires 1 <= |s.positions| <= s.length
    ensures 1 <= |Move(s, d).positions| <= Move(s, d).length
  {
  }

  /** After a reset the one-cell body grows to two cells on the next move
      without popping, since the target length is 2. */
  lemma MoveAfterReset(s: Snake, d: Direction, d': Direction)
    ensures |Move(Reset(s, d), d').positions| == 2
    ensures Move(Reset(s, d), d').positions == [Step(Center, d), Center]
    ensures Move(Reset(s, d), d').last == s.last
  {
  }

  /** A well-formed snake whose pending direction is committed can steer:
      the committed direction never leads into the cell behind the head. */
  lemma {:induction false} CommitKeepsNeckFree(s: Snake)
    requires WellFormed(s)
    ensures Steerable(UpdateDirection(s))
  {
    var r := UpdateDirection(s);
    if |s.positions| >= 2 {
      var head, neck := s.positions[0], s.positions[1];
      StepBack(neck, s.direction);
      assert neck == Step(head, Opposite(s.direction));
      StepInjective(head, r.direction, Opposite(s.direction));
    }
  }

  /** For a steerable snake the index-2 collision test is a full-body test:
      the new head can be neither the head itself nor the cell behind it. */
  lemma CollisionIsFullBodyTest(s: Snake)
    requires Steerable(s)
    ensures Collides(s) <==> NextHead(s) in s.positions
  {
    StepInjective(Head(s), s.direction, s.direction);
    if NextHead(s) in s.positions {
      var i :| 0 <= i < |s.positions| && s.positions[i] == NextHead(s);
      assert i >= 2;
      assert SliceFrom(s.positions, 2)[i - 2] == NextHead(s);
    }
  }

  /** Moving a steerable snake yields a well-formed one: the body stays
      on the grid, free of duplicates and within its target length. */
  lemma {:induction false} MoveKeepsWellFormed(s: Snake, d: Direction)
    requires Steerable(s)
    ensures WellFormed(Move(s, d))
  {
    var r := Move(s, d);
    if !Collides(s) {
      CollisionIsFullBodyTest(s);
      var grown := [NextHead(s)] + s.positions;
      assert r.positions <= grown;
      forall i, j | 0 <= i < j < |grown|
        ensures grown[i] != grown[j]
      {
        if i > 0 {
          assert grown[i] == s.positions[i - 1] && grown[j] == s.positions[j - 1];
        } else {
          assert grown[j] == s.positions[j - 1];
        }
      }
      assert forall i :: 0 <= i < |grown| ==> IsCell(grown[i]);
      assert |r.positions| >= 2 ==> r.positions[1] == s.positions[0];
    }
  }
}
